=== FILE: README.md ===
# Task tracker — a Dafny model of the command logic

The tracker is a command-line to-do list. Every command loads the whole task
list from a JSON file, transforms it, and writes it back unless the command
found nothing to change.
This project models the transformation step of the six commands — `add`,
`list`, `update`, `delete`, `mark-in-progress` and `mark-done` — as pure
functions over `seq<Task>`, and proves what each one does to the list.

Layout:

- `tasks.dfy`, module `Tasks`: the `Task` record (`id`, `description`,
  `status`, `createAt`, `updateAt`, as in `main.py:11-17`), the status
  literals the commands write, the `Option` type of the `list` filter, the
  `Edit` a mutating command applies, and the id helpers (`MaxId`, `NextId`,
  `HasId`, `UniqueIds`, `IsFirstWithId`, `CountId`).
- `selection.dfy`, module `Selection`: the order-preserving filter behind the
  two list comprehensions (`list` by status, `delete` by id). It also gives an
  independent description of "exactly the passing tasks, in order": a strictly
  increasing list of positions. It proves that `Filter` meets that description
  and that only one list can meet it.
- `commands.dfy`, module `Commands`: one function per command. `update`,
  `delete`, `mark-in-progress` and `mark-done` return `Outcome(found, tasks)`.
  When `found` is false, `tasks` is the input list unchanged, because the
  command then skips the save. `add` always saves (main.py:55), so it returns
  just the list it saves.
- `properties.dfy`, module `Properties`: lemmas that relate commands to each
  other and to the unique-id invariant.

The clock is a parameter. `add`, `update` and `mark-in-progress` read
`datetime.now().isoformat()` once per run, and the model passes that reading
in as `now: string`. The `mark-done` loop reads the clock again for every task
it changes (main.py:134). Its model therefore takes `clock: nat -> string`,
where `clock(m)` is the m-th reading of the run. Each match gets the reading
numbered by how many matches come before it. Status is a plain string. The
code writes only `"todo"`, `"in-progress"` and `"done"`, but it accepts any
string in a loaded file and in the `list` filter.

Behaviour of the code that the model keeps, and that a reader might not expect:

- Ids can be reused. The new id is the current maximum plus one (main.py:51).
  So after deleting the task with the largest id, the next `add` issues an id
  no larger than the deleted one (`Properties.AddAfterDeletingMaxIsNotFresh`).
  It issues exactly that id when the next-largest remaining id is one less,
  as with ids 1, 2, 3 (`Properties.AddAfterDeletingMaxReusesIt`,
  `Properties.IdReusedAfterDelete`).
- `add` does not check its description (main.py:48-54). An empty description
  is stored like any other.
- The maximum has no floor of 0 once the list is non-empty. Python's
  `max(..., default=0)` uses the default only for an empty list, so a list whose
  ids are all negative gets a new id at or below 0.
- `mark-done` changes every task with the given id, because its loop has no
  `break` (main.py:131-135). `update` and `mark-in-progress` change only the
  first one. On a list with unique ids the two behaviours agree
  (`Properties.MarkDoneIsFirstOnlyWhenIdsUnique`).
- Uniqueness of ids is not enforced by the code on load. The model proves that
  every command preserves it, and states the delete facts that rely on it
  under the condition `UniqueIds(tasks)`.

## Model

| member | source | states |
|---|---|---|
| Tasks.Apply | main.py:84-85 | an edit sets the edited field (description or status) and sets `updateAt` to `now`; id, creation time and the other field stay |
| Tasks.MaxId | main.py:51 | the maximum of a non-empty list is the id of some task and no task has a larger id |
| Tasks.CountId | main.py:131-134 | the number of tasks with an id is at most the length, and is zero exactly when no task has that id |
| Tasks.NextId | main.py:51 | the new id is 1 for an empty list; otherwise it exceeds every existing id and is one more than some existing id, i.e. exactly the maximum plus one |
| Commands.Add | main.py:50-54 | the old list is kept as a prefix and exactly one task is appended, with the next id, the given description, status "todo" and both timestamps `now`; its id exceeds every earlier id; unique ids stay unique |
| Commands.List | main.py:65-67 | with no filter or the empty string, the whole list; otherwise a subsequence selecting exactly the positions whose status equals the filter, in order |
| Commands.UpdateFirst | main.py:82-87 | the search loop that breaks at the first match: `found` iff some task has the id; if not found the list is unchanged; if found, only the first task with that id is replaced, by the edited task |
| Commands.UpdateAll | main.py:131-135 | the loop without a break: `found` iff some task has the id; the length is kept; every matching task is edited and stamped with the clock reading numbered by the matches before it; every other task is unchanged |
| Commands.Update | main.py:80-92 | `found` iff the id is present; on not-found the list is identical; on found only the first matching task changes, and only in description and `updateAt`; length and all other tasks are unchanged |
| Commands.MarkInProgress | main.py:110-123 | `found` iff the id is present; on not-found the list is identical; on found only the first matching task changes, and only in status (to "in-progress") and `updateAt` |
| Commands.MarkDone | main.py:129-141 | `found` iff the id is present; on not-found the list is identical; every matching task gets status "done" and its own clock reading as `updateAt`, the m-th match the m-th reading; non-matching tasks are unchanged |
| Commands.Delete | main.py:97-105 | `found` iff the id is present iff the list got shorter; on not-found the list is identical; the result is the order-preserving selection of tasks with another id and holds no task with that id; with unique ids it is the list with exactly the one matching task removed, one shorter |
| Commands.DeleteFacts | main.py:98-101 | removing the tasks with an id shortens the list iff the id is present, leaves it equal otherwise, and with unique ids removes exactly one position |
| Selection.Filter | main.py:67 | the filtered list is no longer than the input and every task in it passes the condition |
| Selection.FilterSelects | main.py:67 | the filter keeps exactly the passing positions, in increasing order, and the tasks at them |
| Selection.SelectionUnique | main.py:67 | two lists that both select exactly the passing positions in order are equal, so the selection determines the result |
| Selection.FilterKeepsAll | main.py:99 | when every task passes, filtering returns the list unchanged |
| Selection.FilterDropsFailing | main.py:99-101 | when some task fails, filtering returns a strictly shorter list |
| Selection.FilterAppend | main.py:99 | filtering a concatenation is the concatenation of the filtered parts |
| Selection.FilterDropsOnlyFailing | main.py:99 | when exactly one position fails, filtering removes that position and nothing else |
| Selection.SelectionKeepsIdsUnique | main.py:99 | a selection of a list with unique ids has unique ids |
| Properties.ListIsTheSelection | main.py:66-67 | any order-preserving selection of the tasks with a non-empty status is what `list` returns for that status |
| Properties.CommandsKeepIdsUnique | main.py:50-135 | add, update, mark-in-progress, mark-done and delete all keep pairwise distinct ids pairwise distinct |
| Properties.UpdateKeepsIdsUnique | main.py:82-87 | `update` keeps pairwise distinct ids pairwise distinct |
| Properties.MarkInProgressKeepsIdsUnique | main.py:112-117 | `mark-in-progress` keeps pairwise distinct ids pairwise distinct |
| Properties.MarkDoneKeepsIdsUnique | main.py:131-135 | `mark-done` keeps pairwise distinct ids pairwise distinct |
| Properties.DeleteKeepsIdsUnique | main.py:99 | `delete` keeps pairwise distinct ids pairwise distinct, because what it keeps is a selection of the list |
| Properties.MarkDoneIsFirstOnlyWhenIdsUnique | main.py:131-135 | with unique ids, editing every match equals editing only the first match with the run's first clock reading |
| Properties.MarkDoneChangesEveryDuplicate | main.py:131-135 | with two tasks sharing an id, mark-done changes both, stamping them with the first and second clock readings, while mark-in-progress changes only the first |
| Properties.AddAfterDeletingMaxIsNotFresh | main.py:51 | for positive ids, after deleting the task with the largest id the next id is at most that deleted id |
| Properties.AddAfterDeletingMaxReusesIt | main.py:51 | when some task holds the largest id minus one, after deleting the task with the largest id the next id is exactly that deleted id |
| Properties.IdReusedAfterDelete | main.py:51 | adding two tasks, deleting id 2 and adding again issues id 2 a second time |
| Properties.SessionFromEmptyList | main.py:50-123 | from an empty list: ids 1 and 2 with status "todo"; mark-in-progress of 1 changes only task 1; filtering by "done" is empty; delete of 2 leaves task 1; update of 99 is not found and changes nothing |

## Left out

- Loading and saving the JSON file (`get_tasks`, `save_tasks`, `Task.to_dict`, main.py:19-40): file I/O and the `json` library. This includes the empty-list fallback for a missing or undecodable file. The model starts from the loaded list and returns the list to save.
- `datetime.now().isoformat()`: replaced by the `now` parameter, or by the `clock` function for `mark-done`. Nothing about the format of a reading, or about readings increasing, is used by the code.
- The typer application, argument parsing and every `typer.echo` message (main.py:44, 56, 68-74, 89-92, 102-105, 119-123, 137-141): user interface. The id that `add` prints is the id of the last task of the result.
- The `TASK_FILE` path (main.py:8): configuration.
- Status validation: the code has none, so the model keeps status as a string and invents no invariant about it.
- Malformed records on load: `Task(**task)` (main.py:34) raises an uncaught `TypeError` when a loaded record lacks a field or has an unexpected one, and the whole command fails. This belongs to the loading step, which is left out.
- Ids are assumed to be integers. `Task(**task)` (main.py:34) accepts any JSON value as an id. A string id makes main.py:51 raise a `TypeError`, and a float id such as `2.0` compares equal to the integer `2` at main.py:83. The model types `id` as `int`.


=== FILE: commands.dfy ===
/** The list logic of the tracker's six commands, each as a pure function from
    the loaded task list to the list the command would save. A mutating command
    reports whether it found its target; when it did not, the list it returns is
    the one it was given, matching the command skipping the save. */
module Commands {
  import opened Tasks
  import opened Selection

  /** What a mutating command reports: whether a task matched, and the list to save. */
  datatype Outcome = Outcome(found: bool, tasks: seq<Task>)

  /** `add`: append a task with the next id, status "todo", and both timestamps `now`.
      The description is taken as given, the empty one included. */
  function Add(tasks: seq<Task>, description: string, now: string): (r: seq<Task>)
    ensures |r| == |tasks| + 1 && r[..|tasks|] == tasks
    ensures r[|tasks|] == Task(NextId(tasks), description, Todo, now, now)
    ensures forall j :: 0 <= j < |tasks| ==> tasks[j].id < r[|tasks|].id
    ensures UniqueIds(tasks) ==> UniqueIds(r)
  {
    tasks + [Task(NextId(tasks), description, Todo, now, now)]
  }

  /** `list`: with no filter or the empty one, every task; otherwise exactly the
      tasks whose status equals the filter, in list order. */
  function List(tasks: seq<Task>, status: Option<string>): (r: seq<Task>)
    ensures status.None? || status.value == "" ==> r == tasks
    ensures status.Some? && status.value != "" ==> IsSelection(r, tasks, StatusIs(status.value))
  {
    if status.None? || status.value == "" then tasks
    else FilterSelects(tasks, StatusIs(status.value)); Filter(tasks, StatusIs(status.value))
  }

  /** Apply `e` to the first task with id `k` and stop, leaving every other task
      as it was: the search loop of `update` and `mark-in-progress`, which breaks
      at the first match. */
  function UpdateFirst(tasks: seq<Task>, k: int, e: Edit, now: string): (r: Outcome)
    ensures r.found <==> HasId(tasks, k)
    ensures !r.found ==> r.tasks == tasks
    ensures r.found ==> exists i :: IsFirstWithId(tasks, k, i) && r.tasks == tasks[i := Apply(tasks[i], e, now)]
  {
    if |tasks| == 0 then Outcome(false, tasks)
    else if tasks[0].id == k then
      assert IsFirstWithId(tasks, k, 0);
      Outcome(true, [Apply(tasks[0], e, now)] + tasks[1..])
    else
      var r := UpdateFirst(tasks[1..], k, e, now);
      UpdateFirstStep(tasks, k, e, now, r);
      Outcome(r.found, [tasks[0]] + r.tasks)
  }

  /** The recursive case of UpdateFirst: a first task that does not match only
      shifts the position of the match by one. */
  lemma UpdateFirstStep(tasks: seq<Task>, k: int, e: Edit, now: string, r: Outcome)
    requires |tasks| > 0 && tasks[0].id != k
    requires r.found <==> HasId(tasks[1..], k)
    requires !r.found ==> r.tasks == tasks[1..]
    requires r.found ==> exists i :: IsFirstWithId(tasks[1..], k, i) && r.tasks == tasks[1..][i := Apply(tasks[1..][i], e, now)]
    ensures r.found <==> HasId(tasks, k)
    ensures !r.found ==> [tasks[0]] + r.tasks == tasks
    ensures r.found ==> exists i :: IsFirstWithId(tasks, k, i) && [tasks[0]] + r.tasks == tasks[i := Apply(tasks[i], e, now)]
  {
  }

  /** Apply `e` to every task with id `k`: the loop of `mark-done`, which has no
      break and reads the clock again for every match. `clock(m)` is the m-th
      reading of the command, counting from 0, so the match at position `j`
      gets the reading numbered by the count of matches before it. `found`
      records whether any task matched. */
  function UpdateAll(tasks: seq<Task>, k: int, e: Edit, clock: nat -> string): (r: Outcome)
    ensures r.found <==> HasId(tasks, k)
    ensures |r.tasks| == |tasks|
    ensures forall j :: 0 <= j < |tasks| && tasks[j].id == k ==>
              r.tasks[j] == Apply(tasks[j], e, clock(CountId(tasks[..j], k)))
    ensures forall j :: 0 <= j < |tasks| && tasks[j].id != k ==> r.tasks[j] == tasks[j]
  {
    if |tasks| == 0 then Outcome(false, tasks)
    else
      var n := |tasks| - 1;
      var init := UpdateAll(tasks[..n], k, e, clock);
      var last := if tasks[n].id == k then Apply(tasks[n], e, clock(CountId(tasks[..n], k))) else tasks[n];
      assert forall j :: 0 <= j < n ==> tasks[..n][j] == tasks[j] && tasks[..n][..j] == tasks[..j];
      assert HasId(tasks, k) <==> HasId(tasks[..n], k) || tasks[n].id == k;
      Outcome(init.found || tasks[n].id == k, init.tasks + [last])
  }

  /** `update`: give the first task with id `k` a new description. */
  function Update(tasks: seq<Task>, k: int, description: string, now: string): (r: Outcome)
    ensures r.found <==> HasId(tasks, k)
    ensures !r.found ==> r.tasks == tasks
    ensures r.found ==> exists i ::
              && IsFirstWithId(tasks, k, i)
              && |r.tasks| == |tasks|
              && r.tasks[i] == tasks[i].(description := description, updateAt := now)
              && forall j :: 0 <= j < |tasks| && j != i ==> r.tasks[j] == tasks[j]
  {
    UpdateFirst(tasks, k, SetDescription(description), now)
  }

  /** `mark-in-progress`: set the status of the first task with id `k` to "in-progress". */
  function MarkInProgress(tasks: seq<Task>, k: int, now: string): (r: Outcome)
    ensures r.found <==> HasId(tasks, k)
    ensures !r.found ==> r.tasks == tasks
    ensures r.found ==> exists i ::
              && IsFirstWithId(tasks, k, i)
              && |r.tasks| == |tasks|
              && r.tasks[i] == tasks[i].(status := InProgress, updateAt := now)
              && forall j :: 0 <= j < |tasks| && j != i ==> r.tasks[j] == tasks[j]
  {
    UpdateFirst(tasks, k, SetStatus(InProgress), now)
  }

  /** `mark-done`: set the status of every task with id `k` to "done", each
      match stamped with a clock reading of its own. */
  function MarkDone(tasks: seq<Task>, k: int, clock: nat -> string): (r: Outcome)
    ensures r.found <==> HasId(tasks, k)
    ensures !r.found ==> r.tasks == tasks
    ensures |r.tasks| == |tasks|
    ensures forall j :: 0 <= j < |tasks| && tasks[j].id == k ==>
              r.tasks[j] == tasks[j].(status := Done, updateAt := clock(CountId(tasks[..j], k)))
    ensures forall j :: 0 <= j < |tasks| && tasks[j].id != k ==> r.tasks[j] == tasks[j]
  {
    UpdateAll(tasks, k, SetStatus(Done), clock)
  }

  /** `delete`: drop every task with id `k`; it found its target exactly when the
      list got shorter. */
  function Delete(tasks: seq<Task>, k: int): (r: Outcome)
    ensures r.found <==> HasId(tasks, k)
    ensures r.found <==> |r.tasks| < |tasks|
    ensures !r.found ==> r.tasks == tasks
    ensures IsSelection(r.tasks, tasks, IdOtherThan(k))
    ensures !HasId(r.tasks, k)
    ensures UniqueIds(tasks) && r.found ==> |r.tasks| == |tasks| - 1
    ensures UniqueIds(tasks) && r.found ==>
              exists i :: 0 <= i < |tasks| && tasks[i].id == k && r.tasks == tasks[..i] + tasks[i + 1..]
  {
    var kept := Filter(tasks, IdOtherThan(k));
    FilterSelects(tasks, IdOtherThan(k));
    DeleteFacts(tasks, k);
    Outcome(|kept| < |tasks|, kept)
  }

  /** How removing the tasks with id `k` changes the list, depending on whether
      one is present and whether ids are unique. */
  lemma {:induction false} DeleteFacts(tasks: seq<Task>, k: int)
    ensures HasId(tasks, k) <==> |Filter(tasks, IdOtherThan(k))| < |tasks|
    ensures !HasId(tasks, k) ==> Filter(tasks, IdOtherThan(k)) == tasks
    ensures UniqueIds(tasks) && HasId(tasks, k) ==>
              exists i :: 0 <= i < |tasks| && tasks[i].id == k && Filter(tasks, IdOtherThan(k)) == tasks[..i] + tasks[i + 1..]
  {
    var c := IdOtherThan(k);
    if HasId(tasks, k) {
      var i :| 0 <= i < |tasks| && tasks[i].id == k;
      FilterDropsFailing(tasks, c, i);
      if UniqueIds(tasks) {
        FilterDropsOnlyFailing(tasks, c, i);
      }
    } else {
      FilterKeepsAll(tasks, c);
    }
  }
}

=== FILE: properties.dfy ===
/** Properties that relate several commands, or a command to the collection
    invariant that ids are unique. */
module Properties {
  import opened Tasks
  import opened Selection
  import opened Commands

  /** `list` with a non-empty status returns the one and only order-preserving
      subsequence made of the tasks with that status. */
  lemma ListIsTheSelection(tasks: seq<Task>, status: string, r: seq<Task>)
    requires status != "" && IsSelection(r, tasks, StatusIs(status))
    ensures List(tasks, Some(status)) == r
  {
    SelectionUnique(List(tasks, Some(status)), r, tasks, StatusIs(status));
  }

  /** Every command keeps the ids of a list pairwise distinct. */
  lemma CommandsKeepIdsUnique(tasks: seq<Task>, k: int, description: string, now: string, clock: nat -> string)
    requires UniqueIds(tasks)
    ensures UniqueIds(Add(tasks, description, now))
    ensures UniqueIds(Update(tasks, k, description, now).tasks)
    ensures UniqueIds(MarkInProgress(tasks, k, now).tasks)
    ensures UniqueIds(MarkDone(tasks, k, clock).tasks)
    ensures UniqueIds(Delete(tasks, k).tasks)
  {
    UpdateKeepsIdsUnique(tasks, k, description, now);
    MarkInProgressKeepsIdsUnique(tasks, k, now);
    MarkDoneKeepsIdsUnique(tasks, k, clock);
    DeleteKeepsIdsUnique(tasks, k);
  }

  /** `update` edits one task and keeps every id in place. */
  lemma UpdateKeepsIdsUnique(tasks: seq<Task>, k: int, description: string, now: string)
    requires UniqueIds(tasks)
    ensures UniqueIds(Update(tasks, k, description, now).tasks)
  {
  }

  /** `mark-in-progress` edits one task and keeps every id in place. */
  lemma MarkInProgressKeepsIdsUnique(tasks: seq<Task>, k: int, now: string)
    requires UniqueIds(tasks)
    ensures UniqueIds(MarkInProgress(tasks, k, now).tasks)
  {
  }

  /** `mark-done` edits every match and keeps every id in place. */
  lemma MarkDoneKeepsIdsUnique(tasks: seq<Task>, k: int, clock: nat -> string)
    requires UniqueIds(tasks)
    ensures UniqueIds(MarkDone(tasks, k, clock).tasks)
  {
  }

  /** `delete` keeps a selection of the list, and a selection keeps ids distinct. */
  lemma DeleteKeepsIdsUnique(tasks: seq<Task>, k: int)
    requires UniqueIds(tasks)
    ensures UniqueIds(Delete(tasks, k).tasks)
  {
    SelectionKeepsIdsUnique(Delete(tasks, k).tasks, tasks, IdOtherThan(k));
  }

  /** With unique ids, marking every match done is the same as marking only the
      first one with the command's first clock reading: the missing break in
      `mark-done` makes a difference only on a list with duplicate ids. */
  lemma MarkDoneIsFirstOnlyWhenIdsUnique(tasks: seq<Task>, k: int, clock: nat -> string)
    requires UniqueIds(tasks)
    ensures MarkDone(tasks, k, clock) == UpdateFirst(tasks, k, SetStatus(Done), clock(0))
  {
  }

  /** On a list where two tasks share an id, `mark-done` changes both of them,
      each with its own clock reading, while the break-at-first-match loop of
      `mark-in-progress` changes only the first. */
  lemma MarkDoneChangesEveryDuplicate(clock: nat -> string)
    ensures var tasks := [Task(1, "a", Todo, "t0", "t0"), Task(1, "b", Todo, "t0", "t0")];
      && MarkDone(tasks, 1, clock).tasks == [Task(1, "a", Done, "t0", clock(0)), Task(1, "b", Done, "t0", clock(1))]
      && MarkInProgress(tasks, 1, clock(0)).tasks == [Task(1, "a", InProgress, "t0", clock(0)), Task(1, "b", Todo, "t0", "t0")]
  {
  }

  /** Ids are not fresh across deletions: when ids are positive, as `add` makes
      them, deleting the task holding the largest id lets the next `add` issue
      an id no larger than the deleted one. */
  lemma AddAfterDeletingMaxIsNotFresh(tasks: seq<Task>)
    requires |tasks| > 0
    requires forall j :: 0 <= j < |tasks| ==> tasks[j].id > 0
    ensures NextId(Delete(tasks, MaxId(tasks)).tasks) <= MaxId(tasks)
  {
    var m := MaxId(tasks);
    OthersBelowMax(Delete(tasks, m).tasks, tasks, m);
  }

  /** When some task holds the id just below the largest, deleting the task
      with the largest id makes the next `add` issue exactly that id again. */
  lemma AddAfterDeletingMaxReusesIt(tasks: seq<Task>, j: int)
    requires 0 <= j < |tasks| && tasks[j].id == MaxId(tasks) - 1
    ensures NextId(Delete(tasks, MaxId(tasks)).tasks) == MaxId(tasks)
  {
    var m := MaxId(tasks);
    var rest := Delete(tasks, m).tasks;
    OthersBelowMax(rest, tasks, m);
    var p :| 0 <= p < |rest| && rest[p] == tasks[j];
    NextIdBelowBound(rest, m, p);
  }

  /** The tasks selected for having an id other than the largest id `m` all
      have smaller ids, and every task with another id is among them. */
  lemma OthersBelowMax(rest: seq<Task>, tasks: seq<Task>, m: int)
    requires IsSelection(rest, tasks, IdOtherThan(m))
    requires forall j :: 0 <= j < |tasks| ==> tasks[j].id <= m
    ensures forall i :: 0 <= i < |rest| ==> rest[i].id < m
    ensures forall j :: 0 <= j < |tasks| && tasks[j].id != m ==> tasks[j] in rest
  {
    var idx :| Selects(idx, rest, tasks, IdOtherThan(m));
    forall i | 0 <= i < |rest|
      ensures rest[i].id < m
    {
      assert rest[i] == tasks[idx[i]];
    }
    forall j | 0 <= j < |tasks| && tasks[j].id != m
      ensures tasks[j] in rest
    {
      assert Keeps(IdOtherThan(m), tasks[j]);
      var p :| 0 <= p < |idx| && idx[p] == j;
      assert rest[p] == tasks[j];
    }
  }

  /** The next id of a list whose ids are all below `m`, one of them `m - 1`, is `m`. */
  lemma NextIdBelowBound(tasks: seq<Task>, m: int, p: int)
    requires forall i :: 0 <= i < |tasks| ==> tasks[i].id < m
    requires 0 <= p < |tasks| && tasks[p].id == m - 1
    ensures NextId(tasks) == m
  {
    var q :| 0 <= q < |tasks| && NextId(tasks) == tasks[q].id + 1;
  }

  /** The concrete case: add two tasks, delete the second, add again, and the
      new task gets id 2 a second time. */
  lemma IdReusedAfterDelete()
    ensures var two := Add(Add([], "a", "t0"), "b", "t1");
      && two[1].id == 2
      && Add(Delete(two, 2).tasks, "c", "t2")[1].id == 2
  {
  }

  /** A session from an empty list: two adds, a mark, a filtered list, a delete
      and an update of a missing id. */
  lemma SessionFromEmptyList()
    ensures var one := Add([], "buy milk", "t0");
      var two := Add(one, "pay bills", "t1");
      var marked := MarkInProgress(two, 1, "t2");
      var deleted := Delete(marked.tasks, 2);
      && one == [Task(1, "buy milk", Todo, "t0", "t0")]
      && two == one + [Task(2, "pay bills", Todo, "t1", "t1")]
      && marked == Outcome(true, [Task(1, "buy milk", InProgress, "t0", "t2"), two[1]])
      && List(marked.tasks, Some(Done)) == []
      && deleted == Outcome(true, [marked.tasks[0]])
      && Update(deleted.tasks, 99, "x", "t3") == Outcome(false, deleted.tasks)
  {
    SessionAdds();
    SessionMark();
    SessionListAndDelete();
    SessionUpdateMissing();
  }

  /** The two adds of the session. */
  lemma SessionAdds()
    ensures Add([], "buy milk", "t0") == [Task(1, "buy milk", Todo, "t0", "t0")]
    ensures Add([Task(1, "buy milk", Todo, "t0", "t0")], "pay bills", "t1")
              == [Task(1, "buy milk", Todo, "t0", "t0"), Task(2, "pay bills", Todo, "t1", "t1")]
  {
  }

  /** The mark of the session changes only the task with id 1. */
  lemma SessionMark()
    ensures MarkInProgress([Task(1, "buy milk", Todo, "t0", "t0"), Task(2, "pay bills", Todo, "t1", "t1")], 1, "t2")
              == Outcome(true, [Task(1, "buy milk", InProgress, "t0", "t2"), Task(2, "pay bills", Todo, "t1", "t1")])
  {
  }

  /** After the mark no task is done, and deleting id 2 leaves the first task. */
  lemma SessionListAndDelete()
    ensures var marked := [Task(1, "buy milk", InProgress, "t0", "t2"), Task(2, "pay bills", Todo, "t1", "t1")];
      && List(marked, Some(Done)) == []
      && Delete(marked, 2) == Outcome(true, [marked[0]])
  {
    var marked := [Task(1, "buy milk", InProgress, "t0", "t2"), Task(2, "pay bills", Todo, "t1", "t1")];
    assert marked[..1] == [marked[0]];
    assert Filter(marked, StatusIs(Done)) == [];
  }

  /** Updating an id that is not there finds nothing. */
  lemma SessionUpdateMissing()
    ensures var deleted := [Task(1, "buy milk", InProgress, "t0", "t2")];
      Update(deleted, 99, "x", "t3") == Outcome(false, deleted)
  {
    var deleted := [Task(1, "buy milk", InProgress, "t0", "t2")];
    assert !HasId(deleted, 99);
  }
}

=== FILE: selection.dfy ===
/** Order-preserving filtering of a task list, as the `list` and `delete`
    commands do with a list comprehension, and what "exactly the tasks that
    pass, in order" means independently of how the filter is computed. */
module Selection {
  import opened Tasks

  /** The two conditions the tracker filters by. */
  datatype Criterion = StatusIs(status: string) | IdOtherThan(id: int)

  predicate Keeps(c: Criterion, t: Task) {
    match c
    case StatusIs(s) => t.status == s
    case IdOtherThan(k) => t.id != k
  }

  /** The tasks that pass `c`, in the order the list holds them. */
  function Filter(tasks: seq<Task>, c: Criterion): (r: seq<Task>)
    ensures |r| <= |tasks|
    ensures forall t :: t in r ==> Keeps(c, t)
  {
    if |tasks| == 0 then []
    else
      var kept := Filter(tasks[..|tasks| - 1], c);
      var last := tasks[|tasks| - 1];
      if Keeps(c, last) then kept + [last] else kept
  }

  /** `idx` lists, in strictly increasing order, exactly the positions of
      `tasks` whose task passes `c`, and `r` holds the tasks at those positions. */
  ghost predicate Selects(idx: seq<int>, r: seq<Task>, tasks: seq<Task>, c: Criterion) {
    && |idx| == |r|
    && (forall k :: 0 <= k < |idx| ==> 0 <= idx[k] < |tasks| && r[k] == tasks[idx[k]])
    && (forall k, l :: 0 <= k < l < |idx| ==> idx[k] < idx[l])
    && (forall i :: 0 <= i < |tasks| ==> (Keeps(c, tasks[i]) <==> i in idx))
  }

  /** `r` is the subsequence of `tasks` made of the tasks that pass `c`. */
  ghost predicate IsSelection(r: seq<Task>, tasks: seq<Task>, c: Criterion) {
    exists idx :: Selects(idx, r, tasks, c)
  }

  /** Filter keeps exactly the passing tasks, in order. */
  lemma {:induction false} FilterSelects(tasks: seq<Task>, c: Criterion)
    ensures IsSelection(Filter(tasks, c), tasks, c)
  {
    if |tasks| == 0 {
      assert Selects([], [], tasks, c);
    } else {
      var n := |tasks| - 1;
      var init := tasks[..n];
      FilterSelects(init, c);
      var idx :| Selects(idx, Filter(init, c), init, c);
      SelectsExtend(idx, Filter(init, c), tasks, c);
    }
  }

  /** One step of FilterSelects: the selection made from all but the last task
      extends to the whole list. */
  lemma SelectsExtend(idx: seq<int>, kept: seq<Task>, tasks: seq<Task>, c: Criterion)
    requires |tasks| > 0 && kept == Filter(tasks[..|tasks| - 1], c)
    requires Selects(idx, kept, tasks[..|tasks| - 1], c)
    ensures IsSelection(Filter(tasks, c), tasks, c)
  {
    var n := |tasks| - 1;
    forall i | 0 <= i < n
      ensures Keeps(c, tasks[i]) <==> i in idx
    {
      assert tasks[i] == tasks[..n][i];
    }
    forall k | 0 <= k < |idx|
      ensures idx[k] < n && kept[k] == tasks[idx[k]]
    {
      assert kept[k] == tasks[..n][idx[k]];
    }
    assert n !in idx;
    if Keeps(c, tasks[n]) {
      var idx' := idx + [n];
      var r := kept + [tasks[n]];
      assert Filter(tasks, c) == r;
      assert forall k :: 0 <= k < |idx'| ==> 0 <= idx'[k] < |tasks| && r[k] == tasks[idx'[k]];
      assert forall i :: 0 <= i < |tasks| ==> (Keeps(c, tasks[i]) <==> i in idx');
      assert Selects(idx', r, tasks, c);
    } else {
      assert Filter(tasks, c) == kept;
      assert Selects(idx, kept, tasks, c);
    }
  }

  /** A sequence whose elements all occur in `a` is empty when `a` is. */
  lemma ContainedInEmpty(a: seq<int>, b: seq<int>)
    requires forall x :: x in b ==> x in a
    requires |b| > 0
    ensures |a| > 0
  {
    var y := b[0];
    assert y in b;
  }

  /** Two strictly increasing sequences with the same elements are equal. */
  lemma {:induction false} IncreasingSameElements(a: seq<int>, b: seq<int>)
    requires forall k, l :: 0 <= k < l < |a| ==> a[k] < a[l]
    requires forall k, l :: 0 <= k < l < |b| ==> b[k] < b[l]
    requires forall x :: x in a <==> x in b
    ensures a == b
  {
    if |a| == 0 {
      if |b| > 0 {
        ContainedInEmpty(a, b);
        assert false;
      }
    } else {
      ContainedInEmpty(b, a);
      var x, y := a[0], b[0];
      assert x in a && y in b;
      assert x == y;
      forall z
        ensures z in a[1..] <==> z in b[1..]
      {
        if z in a[1..] {
          assert z > x;
          assert z in b;
        }
        if z in b[1..] {
          assert z > y;
          assert z in a;
        }
      }
      IncreasingSameElements(a[1..], b[1..]);
      assert a == [x] + a[1..];
      assert b == [y] + b[1..];
    }
  }

  /** A selection is unique: whatever computes it, only one list is the
      subsequence of the passing tasks. Together with FilterSelects this pins
      Filter down completely. */
  lemma SelectionUnique(r1: seq<Task>, r2: seq<Task>, tasks: seq<Task>, c: Criterion)
    requires IsSelection(r1, tasks, c) && IsSelection(r2, tasks, c)
    ensures r1 == r2
  {
    var idx1 :| Selects(idx1, r1, tasks, c);
    var idx2 :| Selects(idx2, r2, tasks, c);
    forall x | x in idx1
      ensures x in idx2
    {
      var k :| 0 <= k < |idx1| && idx1[k] == x;
      assert 0 <= x < |tasks| && Keeps(c, tasks[x]);
    }
    forall x | x in idx2
      ensures x in idx1
    {
      var k :| 0 <= k < |idx2| && idx2[k] == x;
      assert 0 <= x < |tasks| && Keeps(c, tasks[x]);
    }
    IncreasingSameElements(idx1, idx2);
  }

  /** When every task passes, nothing is removed. */
  lemma {:induction false} FilterKeepsAll(tasks: seq<Task>, c: Criterion)
    requires forall i :: 0 <= i < |tasks| ==> Keeps(c, tasks[i])
    ensures Filter(tasks, c) == tasks
  {
    if |tasks| > 0 {
      FilterKeepsAll(tasks[..|tasks| - 1], c);
      assert tasks == tasks[..|tasks| - 1] + [tasks[|tasks| - 1]];
    }
  }

  /** When some task fails, the result is strictly shorter. */
  lemma {:induction false} FilterDropsFailing(tasks: seq<Task>, c: Criterion, i: int)
    requires 0 <= i < |tasks| && !Keeps(c, tasks[i])
    ensures |Filter(tasks, c)| < |tasks|
  {
    var n := |tasks| - 1;
    if i < n {
      assert tasks[..n][i] == tasks[i];
      FilterDropsFailing(tasks[..n], c, i);
    }
  }

  /** Filtering a concatenation filters each part. */
  lemma {:induction false} FilterAppend(a: seq<Task>, b: seq<Task>, c: Criterion)
    ensures Filter(a + b, c) == Filter(a, c) + Filter(b, c)
  {
    if |b| == 0 {
      assert a + b == a;
    } else {
      var n := |b| - 1;
      FilterAppend(a, b[..n], c);
      assert (a + b)[..|a + b| - 1] == a + b[..n];
      assert (a + b)[|a + b| - 1] == b[n];
    }
  }

  /** When exactly the task at `i` fails, the result is the list without it. */
  lemma {:induction false} FilterDropsOnlyFailing(tasks: seq<Task>, c: Criterion, i: int)
    requires 0 <= i < |tasks| && !Keeps(c, tasks[i])
    requires forall j :: 0 <= j < |tasks| && j != i ==> Keeps(c, tasks[j])
    ensures Filter(tasks, c) == tasks[..i] + tasks[i + 1..]
  {
    var n := |tasks| - 1;
    var init := tasks[..n];
    if i == n {
      forall j | 0 <= j < |init|
        ensures Keeps(c, init[j])
      {
        assert init[j] == tasks[j];
      }
      FilterKeepsAll(init, c);
      assert tasks[i + 1..] == [];
    } else {
      forall j | 0 <= j < |init| && j != i
        ensures Keeps(c, init[j])
      {
        assert init[j] == tasks[j];
      }
      assert init[i] == tasks[i];
      FilterDropsOnlyFailing(init, c, i);
      assert init[..i] == tasks[..i];
      assert init[i + 1..] + [tasks[n]] == tasks[i + 1..];
    }
  }

  /** A selection of a list with unique ids has unique ids. */
  lemma SelectionKeepsIdsUnique(r: seq<Task>, tasks: seq<Task>, c: Criterion)
    requires IsSelection(r, tasks, c) && UniqueIds(tasks)
    ensures UniqueIds(r)
  {
    var idx :| Selects(idx, r, tasks, c);
    forall a, b | 0 <= a < b < |r|
      ensures r[a].id != r[b].id
    {
      assert idx[a] < idx[b];
    }
  }
}

=== FILE: tasks.dfy ===
/** The task record of the tracker and the facts about ids that every command relies on. */
module Tasks {

  /** An optional value; the `list` command takes an optional status filter. */
  datatype Option<T> = None | Some(value: T)

  /** One task as the tracker stores it. Timestamps are opaque strings: the
      tracker only ever copies the current time into them. */
  datatype Task = Task(id: int, description: string, status: string, createAt: string, updateAt: string)

  /** The three status literals the commands write. Loaded tasks may carry any string. */
  const Todo: string := "todo"
  const InProgress: string := "in-progress"
  const Done: string := "done"

  /** The field change a mutating command makes to a task, besides refreshing `updateAt`. */
  datatype Edit = SetDescription(description: string) | SetStatus(status: string)

  /** A task after an edit made at time `now`: the edited field takes its new value,
      `updateAt` becomes `now`, and the id, the creation time and the other field stay. */
  function Apply(t: Task, e: Edit, now: string): (r: Task)
    ensures r.id == t.id && r.createAt == t.createAt && r.updateAt == now
    ensures e.SetDescription? ==> r.description == e.description && r.status == t.status
    ensures e.SetStatus? ==> r.status == e.status && r.description == t.description
  {
    match e
    case SetDescription(d) => t.(description := d, updateAt := now)
    case SetStatus(s) => t.(status := s, updateAt := now)
  }

  /** Some task in the list carries id `k`. */
  predicate HasId(tasks: seq<Task>, k: int) {
    exists j :: 0 <= j < |tasks| && tasks[j].id == k
  }

  /** No two tasks of the list share an id. */
  predicate UniqueIds(tasks: seq<Task>) {
    forall i, j :: 0 <= i < j < |tasks| ==> tasks[i].id != tasks[j].id
  }

  /** How many tasks of the list carry id `k`. */
  function CountId(tasks: seq<Task>, k: int): (n: nat)
    ensures n <= |tasks|
    ensures n == 0 <==> !HasId(tasks, k)
  {
    if |tasks| == 0 then 0
    else
      var init := tasks[..|tasks| - 1];
      assert forall j :: 0 <= j < |init| ==> init[j] == tasks[j];
      CountId(init, k) + (if tasks[|tasks| - 1].id == k then 1 else 0)
  }

  /** `i` is the position of the first task with id `k`: where a front-to-back
      search that stops at the first match stops. */
  predicate IsFirstWithId(tasks: seq<Task>, k: int, i: int) {
    0 <= i < |tasks| && tasks[i].id == k && forall j :: 0 <= j < i ==> tasks[j].id != k
  }

  /** The largest id of a non-empty list. Nothing bounds it below: a list whose
      ids are all negative has a negative maximum. */
  function MaxId(tasks: seq<Task>): (m: int)
    requires |tasks| > 0
    ensures exists j :: 0 <= j < |tasks| && tasks[j].id == m
    ensures forall j :: 0 <= j < |tasks| ==> tasks[j].id <= m
  {
    if |tasks| == 1 then tasks[0].id
    else
      var m' := MaxId(tasks[..|tasks| - 1]);
      var last := tasks[|tasks| - 1].id;
      if last > m' then last else m'
  }

  /** The id `add` gives a new task: one more than the largest id, or 1 for an
      empty list. It exceeds every id in the list and, for a non-empty list, is
      the successor of one of them, so it is exactly the maximum plus one. */
  function NextId(tasks: seq<Task>): (n: int)
    ensures forall j :: 0 <= j < |tasks| ==> tasks[j].id < n
    ensures |tasks| == 0 ==> n == 1
    ensures |tasks| > 0 ==> exists j :: 0 <= j < |tasks| && n == tasks[j].id + 1
  {
    (if |tasks| == 0 then 0 else MaxId(tasks)) + 1
  }
}
